=== FILE: README.md ===
# Portfolio cube and vertical-loop navigator, modelled in Dafny

This project models the logic at the centre of a portfolio site's two linked widgets. The rest of the site is view wiring.

- **The vertical loop navigator** (`verticalLoop`). A list of items scrolls on a seamless, endlessly repeating timeline. The navigator keeps a committed index and a dirty flag. It also records the last index reported to an optional change observer. `toIndex` is written to move the shortest way round: it folds the target into range and shifts the target's label time by one period so that the playhead moves in the chosen direction. Two kinds of reachable state defeat this and send a tween a whole loop round (see Findings). `next` and `previous` step the committed index by one. `closestIndex` finds the label nearest the playhead.
- **Face-index cycling** in the navigation context. `next` and `previous` step through a fixed order of six colours using JavaScript's `%`. `getIndex` maps the colour at the front back to its index, or to -1.
- **The cube's face table** and the front-face lookup. The lookup returns the first face, in table order, whose rotated and rounded normal points at the viewer. It also covers the face search used when the cube is steered to a colour.
- **Cubie colouring** and the 3×3×3 enumeration. The second app has its own copy of both. That copy is modelled as written and proved equal to the first.

## Modules

| file | module | models |
|---|---|---|
| `results.dfy` | `Results` | `Option` / `Result` |
| `cube_faces.dfy` | `CubeFaces` | `src/components/RubiksCubeCanvas.tsx` |
| `navigation.dfy` | `Navigation` | `src/context/NavigationContext.tsx` |
| `cubies.dfy` | `Cubies` | `src/components/Cubies.tsx` |
| `web_cube.dfy` | `WebCube` | `apps/web/src/components/RubiksCube.tsx` |
| `loop_math.dfy` | `LoopMath` | `gsap.utils.wrap`, the circular distance and `getClosest` of `src/lib/verticalCarousel.ts` |
| `vertical_loop.dfy` | `VerticalLoop` | the navigator state and its operations in `src/lib/verticalCarousel.ts` |

### Modelling choices

- **The animation timeline.** It is reduced to two numbers, the playhead and the duration, both exact reals. The label times are inputs, one per item, each in `[0, duration)`. A call hands the timeline a `Motion`. A `Seek` is an instant move, made when the duration is 0. Setting the playhead is a timeline update, so a seek also runs the observer's update callback at the new playhead (`Frame`); the step reports that call. A `Tween` aims at a target time and says whether the time-wrapping modifier is installed. `Settle` models the end of a tween: the playhead lands on the target, read through the wrap when the modifier is installed, and that last frame is a timeline update too, so it runs the observer's update callback there (`Frame`). The playheads the tween passes through before its last frame are explicit `Tick`s or `Frame`s.
- **`gsap.utils.wrap(min, max, x)`.** It is `min + ((x - min) mod (max - min))`. Integers use Dafny's Euclidean `%` (`WrapIndex`). Reals use `t - floor(t / d) * d` (`TimeWrap`), where `floor(t / d) * d` is the time that many whole loops take (`LoopsTime`). Each comes with a lemma saying it is the unique value in range that differs from the input by whole periods.
- **JavaScript's `%`** on the face index truncates toward zero (`Navigation.JsRem`). The dividends `face + 1` and `face + 5` are non-negative on every stored face, so truncation and Euclidean remainder agree there. `getIndex`'s -1 can be stored as the current face, so the stepping functions are specified from -1 upwards and not only on `[0,6)`.
- **The cube's rotation.** The quaternion rotation followed by `Math.round` on each component is a parameter `rounded: Vec3 -> Vec3`.
- **Colours.** They are a datatype. Black stickers are `Cubies.Black`. Cubie keys are strings built by the model's own decimal printer. A parser inverts that printer, which is how key distinctness is proved.

### Behaviour of the code worth knowing (the model follows the code)

- `toIndex` does not clear the dirty flag. `ToIndex` leaves it unchanged. Nothing ever sets the flag, so this makes no difference (`CurrentIsCommittedIndex`).
- The shortest-direction adjustment at `src/lib/verticalCarousel.ts:168`, whose comment reads "always go in the shortest direction", moves the target by at most one length. The step is therefore at most half a loop only for targets within one and a half lengths of the current index. Every caller stays within that range. `FarTargetIsNotShortened` shows a target where the adjustment falls short.
- `getClosest` folds the distance only once. So the distance is not periodic in the playhead for points more than a loop apart (`DistFoldsOnce`). The playhead is always within `[0, duration]`, and there the distance is a true circular distance (`DistBounds`).
- `getClosest` starts from a sentinel of `1e10`, so a label at that distance or farther is never picked. Its contract states minimality among labels nearer than the sentinel. `ClosestIsNearest` removes that condition for loops shorter than `2e10` seconds.

## Model

| member | source | states |
|---|---|---|
| `VerticalLoop.Create` | src/lib/verticalCarousel.ts:200-209 | Building fails exactly when there are no items. Otherwise the playhead is 0, the dirty flag is clear, the committed index is the label nearest the playhead with ties going to the highest index, `lastIndex` equals it, and the observer is called once with it exactly when there is an observer |
| `VerticalLoop.ShortestTarget` | src/lib/verticalCarousel.ts:168 | The adjustment only adds or subtracts one length. It leaves targets within half a loop alone. For targets within one and a half lengths (in-range targets, `cur±1`, -1) the resulting step satisfies `2*|a - cur| <= n` |
| `VerticalLoop.CorrectedTime` | src/lib/verticalCarousel.ts:171-173 | The label moves by at most one period. With label and playhead in `[0,D)`, a higher target gives a time in `(playhead, playhead + D]`, a lower one a time in `(playhead - D, playhead]`, and an equal one the label untouched |
| `VerticalLoop.ToIndex` | src/lib/verticalCarousel.ts:166-180 | The committed index is the original target wrapped into `[0,n)`. An instant move puts the playhead exactly on that item's label and runs the observer's update there, as a `Frame` at that playhead would. A tween keeps the playhead, `lastIndex` and the observer silent, and aims at a copy of the label, with the wrap modifier installed exactly when the target is below 0 or above D. Labels and dirty flag are unchanged |
| `VerticalLoop.InstantMoveReports` | src/lib/verticalCarousel.ts:179 | With distinct labels and an observer, an instant `toIndex(i)` reports the item it lands on unless that item was the last reported, and records it as the last reported either way |
| `VerticalLoop.ToIndexTravelsChosenWay` | src/lib/verticalCarousel.ts:168-173 | On every valid loop, playhead at the end included: measured against the adjusted target, a tween aims forward by at most one period when the target is above the committed index and backward by at most one period when below. When equal it aims at the label itself, which from the end of the timeline onto a label at 0 is a whole period back |
| `VerticalLoop.FullLoopBack` | src/lib/verticalCarousel.ts:166-180 | On four evenly spaced items, `next()` from the last item settles at the end of the timeline on item 0, and a following `toIndex(0)` tweens from 1 back to 0 |
| `VerticalLoop.ToIndexWrapped` | src/lib/verticalCarousel.ts:166-180 | The corrected `toIndex`: it reads the playhead through the wrap first. It is `toIndex` on every playhead inside `[0,D)` and commits the same index; at the end of the timeline the playhead becomes 0 |
| `VerticalLoop.WrappedToIndexTravelsChosenWay` | src/lib/verticalCarousel.ts:168-173 | With the playhead read through the wrap, forward moves aim in `(p, p + D]`, backward moves in `(p - D, p]`, and staying put aims at the label less than a period away; from the end onto a label at 0 the tween has nothing to travel. A forward move onto the label under the playhead still aims a whole period ahead |
| `VerticalLoop.ToIndexForwardTie` | src/lib/verticalCarousel.ts:171-172 | When the playhead sits exactly on the label of a target above the committed index, the strict `time > tl.time()` treats the label as behind and the tween aims a whole period ahead of the playhead |
| `VerticalLoop.ForwardTieReachable` | src/lib/verticalCarousel.ts:166-194 | Built from four evenly spaced labels, `toIndex(2)` at once, then `previous()` and `next()` before a frame: the second call leaves the playhead at 0.5 on committed item 1 and aims `Tween(1.5, true)` at item 2 |
| `VerticalLoop.TieAwareTime` | src/lib/verticalCarousel.ts:171-173 | The corrected label shift: moves the label only when it lies strictly on the wrong side, so a label under the playhead stays put. Within `[0,D)` forward targets land in `[p, p + D)` and backward ones in `(p - D, p]`, and it agrees with `CorrectedTime` whenever label and playhead differ |
| `VerticalLoop.ToIndexShortest` | src/lib/verticalCarousel.ts:166-180 | The corrected `toIndex`: wrapped playhead and tie-aware shift. It is `ToIndexWrapped` whenever the wrapped playhead is off the target's label and for every instant move. A tween keeps `lastIndex`, calls nobody and aims at a copy of the committed label that `Settle` accepts |
| `VerticalLoop.ShortestToIndexTravelsChosenWay` | src/lib/verticalCarousel.ts:168-173 | With the corrected `toIndex` every tween travels less than a period: forward into `[p, p + D)`, backward into `(p - D, p]`, staying put onto the label, and not at all onto the label under the playhead |
| `VerticalLoop.Next` | src/lib/verticalCarousel.ts:193 | `next` commits the following index cyclically: `cur + 1`, or 0 after the last item |
| `VerticalLoop.Previous` | src/lib/verticalCarousel.ts:194 | `previous` commits the preceding index cyclically: `cur - 1`, or `n - 1` before the first item |
| `VerticalLoop.NextThenPreviousRestores` | src/lib/verticalCarousel.ts:193-194 | `next` then `previous`, each run to completion, returns to the starting index for every length, including 1 and 2 |
| `VerticalLoop.Settle` | src/lib/verticalCarousel.ts:174-179 | A completed motion leaves labels, committed index and dirty flag unchanged. The playhead rests on the committed item's label, or at the end of the timeline when that label is 0. A seek has already run its update and reports nothing more. A tween's last frame runs the observer's update at the landing playhead, exactly as a `Frame` there would |
| `VerticalLoop.SettledMoveIsClosest` | src/lib/verticalCarousel.ts:166-189 | If no two labels coincide, then after `toIndex(i)` completes, `closestIndex(true)` reports `i` wrapped into range, and with an observer that index is the last one reported |
| `VerticalLoop.ClosestIndex` | src/lib/verticalCarousel.ts:182-189 | Returns an in-range index whose label is nearest the playhead, with ties going to the highest index. `closestIndex(false)` changes nothing. `closestIndex(true)` commits the index and clears the dirty flag |
| `VerticalLoop.ClosestIsNearest` | src/lib/verticalCarousel.ts:117-132 | On a valid loop every label is within half a loop of the playhead, so the result is the nearest label outright |
| `VerticalLoop.Current` | src/lib/verticalCarousel.ts:192 | A clean loop answers its committed index and is left unchanged. A dirty loop answers exactly what `closestIndex(true)` does: the nearest label (ties to the highest index), committed, with the flag cleared and everything else kept |
| `VerticalLoop.Frame` | src/lib/verticalCarousel.ts:53-58 | One update moves the playhead. The observer fires exactly when there is one and the closest index differs from `lastIndex`. `lastIndex` is updated to the fired index first |
| `VerticalLoop.RunFrames` | src/lib/verticalCarousel.ts:53-58 | A sequence of updates keeps the loop valid and keeps its labels, duration, committed index and dirty flag: only the playhead and `lastIndex` change |
| `VerticalLoop.RunFramesNeverRepeats` | src/lib/verticalCarousel.ts:53-58 | Over any sequence of updates the observer never fires twice in a row with the same index. Its first call differs from the index reported before. `lastIndex` ends as the last reported index, or unchanged when nothing fired |
| `VerticalLoop.Apply` | src/lib/verticalCarousel.ts:191-198 | Every exposed call and every timeline update keeps the loop valid and never sets the dirty flag |
| `VerticalLoop.Replay` | src/lib/verticalCarousel.ts:191-198 | Any sequence of calls keeps the loop valid and the dirty flag clear |
| `VerticalLoop.CurrentIsCommittedIndex` | src/lib/verticalCarousel.ts:182-192 | On every loop reachable from a build, `current()` returns `curIndex` and changes nothing |
| `VerticalLoop.FarTargetIsNotShortened` | src/lib/verticalCarousel.ts:168 | From index 0 of a four-item loop, `toIndex(20)` still steps 16 places |
| `LoopMath.Closest` | src/lib/verticalCarousel.ts:117-132 | An empty array gives 0. Otherwise the result is in range, its label is at least as close as every label below the sentinel, and it is strictly closer than every such label at a higher index |
| `LoopMath.Scan` | src/lib/verticalCarousel.ts:121-130 | The downward scan with its strict `<` keeps the highest index among the nearest labels seen so far |
| `LoopMath.DistBounds` | src/lib/verticalCarousel.ts:122-125 | For a label in `[0,D)` and a playhead in `[0,D]` the distance lies in `[0, D/2]`. It is 0 exactly when the two coincide, or when the label is 0 and the playhead is at D |
| `LoopMath.Dist` | src/lib/verticalCarousel.ts:122-125 | The distance is the straight gap or the gap the other way round, never more than the straight gap and never more than half a loop, and it is the straight gap whenever that is at most half a loop |
| `LoopMath.DistFoldsOnce` | src/lib/verticalCarousel.ts:122-125 | Any two points more than a loop apart get a negative distance |
| `LoopMath.WrapIndex` | src/lib/verticalCarousel.ts:169 | The wrapped index lies in `[0,n)` and leaves in-range indices alone |
| `LoopMath.WrapIndexUnique` | src/lib/verticalCarousel.ts:169 | The wrapped index is the one value in `[0,n)` congruent to the input modulo n |
| `LoopMath.WrapIndexShift` | src/lib/verticalCarousel.ts:168-169 | Adding or subtracting one length does not change the wrapped index |
| `LoopMath.TimeWrap` | src/lib/verticalCarousel.ts:147 | The wrapped time lies in `[0,D)` and leaves in-range times alone |
| `LoopMath.TimeWrapUnique` | src/lib/verticalCarousel.ts:147 | The wrapped time is the one value in `[0,D)` that differs from the input by whole periods |
| `LoopMath.TimeWrapOfShift` | src/lib/verticalCarousel.ts:172-179 | A label moved by one period either way wraps back to the label |
| `Navigation.JsRem` | src/context/NavigationContext.tsx:23-29 | The remainder takes the sign of the dividend and is smaller than the divisor in magnitude |
| `Navigation.Next` | src/context/NavigationContext.tsx:29 | From any stored face, -1 included, the next face is an index in `[0,6)` congruent to `face + 1` |
| `Navigation.Previous` | src/context/NavigationContext.tsx:23 | From any stored face, -1 included, the previous face is an index in `[0,6)` congruent to `face - 1` |
| `Navigation.NextPreviousInverse` | src/context/NavigationContext.tsx:22-32 | On `[0,6)`, `next` and `previous` undo each other |
| `Navigation.NextTimesAdvances` | src/context/NavigationContext.tsx:29 | `k` presses of next from `f` give `(f + k) % 6` |
| `Navigation.NextSixTimesIsIdentity` | src/context/NavigationContext.tsx:20-29 | Six presses of next return to the starting face |
| `Navigation.NavigationPathsArePermutation` | src/context/NavigationContext.tsx:20 | The colour order has six entries, no duplicates, and every colour |
| `Navigation.IndexOf` | src/context/NavigationContext.tsx:38 | Returns -1 exactly when the colour is absent. Otherwise it returns the first position holding it |
| `Navigation.GetIndex` | src/context/NavigationContext.tsx:34-41 | Returns -1 exactly when the front colour is unknown. Otherwise it returns `i` in `[0,6)` whose colour in the navigation order is the front colour |
| `CubeFaces.FaceTableColors` | src/components/RubiksCubeCanvas.tsx:17-26 | The table has six entries with pairwise distinct colours covering the whole colour union |
| `CubeFaces.FaceNormalsAreAxes` | src/components/RubiksCubeCanvas.tsx:20-25 | Every face normal is a unit axis vector |
| `CubeFaces.FaceNormalsDistinct` | src/components/RubiksCubeCanvas.tsx:20-25 | The six normals are pairwise distinct |
| `CubeFaces.OppositeFacePairs` | src/components/RubiksCubeCanvas.tsx:20-25 | White/yellow, red/orange and blue/green are negations of each other |
| `CubeFaces.FacingIndex` | src/components/RubiksCubeCanvas.tsx:32-46 | The search stops at the first face whose rounded normal is (0,0,1), and every face before it points elsewhere |
| `CubeFaces.FrontFaceColor` | src/components/RubiksCubeCanvas.tsx:28-48 | Returns the colour of the first face in table order whose rounded rotated normal is (0,0,1). Returns `'unknown'` exactly when no face's is |
| `CubeFaces.UnrotatedFrontIsBlue` | src/components/RubiksCubeCanvas.tsx:24-46 | Under the identity rotation the front face is blue |
| `CubeFaces.AlignedCubeHasFront` | src/components/RubiksCubeCanvas.tsx:28-48 | When the rotation sends the six normals to six distinct axis vectors (any axis-aligned orientation), the result is never `'unknown'` |
| `CubeFaces.FindFace` | src/components/RubiksCubeCanvas.tsx:54 | The `find` in `snapToCubeFaceColor` succeeds for every colour and returns a table entry of that colour |
| `CubeFaces.FindFaceFrom` | src/components/RubiksCubeCanvas.tsx:54 | A found entry has the requested colour. A failed search means no remaining entry has it |
| `Cubies.CubieMaterials` | src/components/Cubies.tsx:8-17 | Six stickers. Sticker `i` carries face `i`'s colour from the face table exactly when the coordinate along that face's normal is 1, and is black otherwise. For example, slot 0 is white iff x = 1 and slot 5 is green iff z = -1 |
| `Cubies.OppositeStickersExclusive` | src/components/Cubies.tsx:10-15 | Opposite stickers (0,1), (2,3) and (4,5) are never both painted |
| `Cubies.PaintedCountIsNonZeroCount` | src/components/Cubies.tsx:8-17 | On the 3×3×3 grid the number of painted stickers equals the number of non-zero coordinates |
| `Cubies.ShowShape` | src/components/Cubies.tsx:42 | A coordinate in the key prints as a minus sign exactly for negatives, followed by one or more digits and nothing else |
| `Cubies.KeyRoundTrip` | src/components/Cubies.tsx:42 | Every key `${x}-${y}-${z}` (`Key`) parses back to its coordinate |
| `Cubies.KeyInjective` | src/components/Cubies.tsx:42 | Distinct coordinates have distinct keys |
| `Cubies.MakeCubieDescribes` | src/components/Cubies.tsx:40-46 | The cubie pushed for a grid point sits at it, its key reads back as it, and it has one sticker per face, painted exactly where the face's normal points the way the point lies |
| `Cubies.CubeLayoutKeysDistinct` | src/components/Cubies.tsx:37-49 | The 27 cubies of the layout have pairwise distinct keys |
| `Cubies.CubeLayoutCoversGrid` | src/components/Cubies.tsx:37-49 | Every coordinate of the 3×3×3 grid appears in the layout |
| `Cubies.BuildCubies` | src/components/Cubies.tsx:37-49 | The loop nest yields 27 cubies in x, y, z order, coloured by `CubieMaterials`, with pairwise distinct keys, covering the grid |
| `WebCube.CubieMaterials` | apps/web/src/components/RubiksCube.tsx:12-21 | This copy of the colouring is the same function as `Cubies.CubieMaterials`, so it follows the same slot/extreme rule |
| `WebCube.CubieMaterialsProperties` | apps/web/src/components/RubiksCube.tsx:12-21 | Six stickers, opposite stickers never both painted, and on the grid as many painted stickers as non-zero coordinates |
| `WebCube.BuildCubies` | apps/web/src/components/RubiksCube.tsx:96-108 | This copy of the loop nest yields the same 27-cubie layout, with pairwise distinct keys, covering the grid |

## Left out

- GSAP tweening: easing, `overwrite`, `progress`, and the frame-by-frame interpolation of a tween. These are engine behaviour. A tween is its target and its end state, whose last frame runs the observer (`Settle`). The playheads before its last frame are `Tick`s or `Frame`s.
- The `onReverseComplete` shift of the total time by 100 durations, and the `reversed` option. They change the engine's total time, not the navigator's state.
- Geometry sampling and timeline building (`populateHeights`, `getTotalHeight`, `populateTimeline`). They measure the DOM in floating-point pixels. Label times and the duration are inputs, with each label in `[0, duration)` and the duration positive.
- The centring path of `populateOffsets`. `container` is never assigned when `center` is `true`, so only the non-centring case runs. In that case the time offset is 0 and the labels are unchanged, which is what the model assumes.
- `refresh`, the resize listener and the `gsap.context` cleanup. These are browser event plumbing.
- The label-time array exposed as `times` is the `times` field of the loop. No separate accessor is modelled.
- Quaternion and Euler maths, `slerpQuaternions`, `setFromUnitVectors` and the angle snap to π/2, in both cube components. These are floating-point three.js calls. The rotation is the abstract `rounded` map.
- The React state around the face index (`setcurrentFace`, contexts, refs) and the call to `snapToCubeFaceColor` after a step. Only the index arithmetic is modelled, plus the face lookup that call performs (`FindFace`).
- The cubie's rendered position `[x*gap, y*gap, z*gap]`. Only the integer grid coordinate is kept, since the gap scaling is a real-valued display detail.
- All page, route, footer, contact, text and link components, and the Next.js configuration. These are view wiring with no logic.
- `LoopMath.Closest`: minimality is stated only among labels nearer than the `1e10` sentinel, because the source never selects a label at that distance or farther. `VerticalLoop.ClosestIsNearest` gives the unconditional form for loops shorter than `2e10` seconds.
- `VerticalLoop.SettledMoveIsClosest`: assumes no two labels coincide. With equal labels the scan may report the other item sharing the label.
- `VerticalLoop.InstantMoveReports`: assumes no two labels coincide, for the same reason as `SettledMoveIsClosest`.
- The timeline's own reading of a playhead at exactly its end. The model keeps the playhead at the duration after a tween to `0 + D`, as the tween's target says; how the engine reports `time()` there on a repeating timeline is engine behaviour.

## Findings

| source | as written | input that shows it | evidently intended | confidence | as-written member | corrected member |
|---|---|---|---|---|---|---|
| src/lib/verticalCarousel.ts:171-180 | `toIndex` compares the label with the raw playhead. A playhead at the very end of the timeline (time D, reached by a tween to `0 + D`) is treated as later than every label, so staying on an item whose label is 0 tweens from D back to 0, a whole loop backwards | four items with labels 0, 0.25, 0.5, 0.75 and D = 1; `next()` from item 3 settles at time 1 on item 0; then `toIndex(0)` (or `toIndex(4)`) aims a tween at 0 with no wrap modifier | the end of a seamless loop shows the same frame as its start, so the comment "always go in the shortest direction" calls for seeking the playhead to `timeWrap(tl.time())` before comparing; staying put then travels nothing. `ToIndexWrapped` corrects this case only; `ToIndexShortest` corrects it and the next row's | medium, not executed | `VerticalLoop.FullLoopBack`, `VerticalLoop.ToIndexTravelsChosenWay` | `VerticalLoop.ToIndexWrapped`, `VerticalLoop.WrappedToIndexTravelsChosenWay` |
| src/lib/verticalCarousel.ts:171-172 | For a target above the committed index the label is moved a period forward whenever `time > tl.time()` is false. A label exactly under the playhead therefore counts as behind it, and the tween goes a whole loop forward to reach the item already in place | four items with labels 0, 0.25, 0.5, 0.75 and D = 1; `toIndex(2, {duration: 0})` puts the playhead at 0.5; `previous()` then `next()` before a frame renders asks for item 2 from item 1 and aims a tween at 1.5 with the wrap modifier | only a label strictly behind the playhead is moved forward (`time < tl.time()`), so the item under the playhead is reached without travelling | medium, not executed | `VerticalLoop.ToIndexForwardTie`, `VerticalLoop.ForwardTieReachable` | `VerticalLoop.ToIndexShortest`, `VerticalLoop.ShortestToIndexTravelsChosenWay` |

=== FILE: cube_faces.dfy ===
/**
 * The face table of the cube canvas and the front-face lookup.
 *
 * Each face of the cube is a colour and the unit axis vector its sticker
 * points along in the cube's own frame. The front face is the first face,
 * in table order, whose rotated and rounded normal points at the viewer
 * along +Z. The quaternion rotation followed by `Math.round` on each
 * component is abstracted as a total map on integer vectors.
 */
module CubeFaces {
  import opened Results

  datatype FaceColor = White | Yellow | Red | Orange | Blue | Green

  datatype Vec3 = Vec3(x: int, y: int, z: int)

  datatype CubeFace = CubeFace(color: FaceColor, normal: Vec3)

  /** What the lookup reports: a face colour, or `'unknown'`. */
  datatype FrontColor = Front(color: FaceColor) | Unknown

  /** The six faces in declaration order: right, left, top, bottom, front, back. */
  const Faces: seq<CubeFace> := [
    CubeFace(White, Vec3(1, 0, 0)),
    CubeFace(Yellow, Vec3(-1, 0, 0)),
    CubeFace(Red, Vec3(0, 1, 0)),
    CubeFace(Orange, Vec3(0, -1, 0)),
    CubeFace(Blue, Vec3(0, 0, 1)),
    CubeFace(Green, Vec3(0, 0, -1))
  ]

  /** The direction towards the camera. */
  const Forward: Vec3 := Vec3(0, 0, 1)

  /** The six unit axis vectors. */
  const Axes: set<Vec3> := {
    Vec3(1, 0, 0), Vec3(-1, 0, 0), Vec3(0, 1, 0),
    Vec3(0, -1, 0), Vec3(0, 0, 1), Vec3(0, 0, -1)
  }

  function Neg(v: Vec3): Vec3 {
    Vec3(-v.x, -v.y, -v.z)
  }

  function Dot(a: Vec3, b: Vec3): int {
    a.x * b.x + a.y * b.y + a.z * b.z
  }

  /** The colours the face table carries. */
  function TableColors(): set<FaceColor> {
    set i | 0 <= i < |Faces| :: Faces[i].color
  }

  /** The face table carries every colour of the union type, each exactly once. */
  lemma FaceTableColors()
    ensures |Faces| == 6
    ensures forall i, j :: 0 <= i < j < |Faces| ==> Faces[i].color != Faces[j].color
    ensures forall c: FaceColor :: c in TableColors()
  {
    forall c: FaceColor ensures c in TableColors() {
      var i := match c
        case White => 0 case Yellow => 1 case Red => 2
        case Orange => 3 case Blue => 4 case Green => 5;
      assert Faces[i].color == c;
    }
  }

  /** Every face normal is a unit axis vector. */
  lemma FaceNormalsAreAxes()
    ensures forall i :: 0 <= i < |Faces| ==> Faces[i].normal in Axes
  {
  }

  /** The six normals are pairwise distinct. */
  lemma FaceNormalsDistinct()
    ensures forall i, j :: 0 <= i < j < |Faces| ==> Faces[i].normal != Faces[j].normal
  {
  }

  /** White/yellow, red/orange and blue/green point in opposite directions. */
  lemma OppositeFacePairs()
    ensures Faces[1].normal == Neg(Faces[0].normal)
    ensures Faces[3].normal == Neg(Faces[2].normal)
    ensures Faces[5].normal == Neg(Faces[4].normal)
  {
    FaceNormals();
  }

  /** The table's normals, read off entry by entry. */
  lemma FaceNormals()
    ensures Faces[0].normal == Vec3(1, 0, 0) && Faces[1].normal == Vec3(-1, 0, 0)
    ensures Faces[2].normal == Vec3(0, 1, 0) && Faces[3].normal == Vec3(0, -1, 0)
    ensures Faces[4].normal == Vec3(0, 0, 1) && Faces[5].normal == Vec3(0, 0, -1)
  {
  }

  /**
   * Index of the first face at or after `from` whose rounded rotated normal is
   * `Forward`, or `|Faces|` when there is none: the loop of `getFrontFaceColor`.
   */
  function FacingIndex(rounded: Vec3 -> Vec3, from: nat): (r: nat)
    requires from <= |Faces|
    ensures from <= r <= |Faces|
    ensures r < |Faces| ==> rounded(Faces[r].normal) == Forward
    ensures forall j :: from <= j < r ==> rounded(Faces[j].normal) != Forward
    decreases |Faces| - from
  {
    if from == |Faces| then from
    else if rounded(Faces[from].normal) == Forward then from
    else FacingIndex(rounded, from + 1)
  }

  /**
   * The colour of the first face, in table order, whose rounded rotated
   * normal equals (0,0,1); `Unknown` only when no face's does.
   */
  function FrontFaceColor(rounded: Vec3 -> Vec3): (r: FrontColor)
    ensures r == Unknown <==> forall i :: 0 <= i < |Faces| ==> rounded(Faces[i].normal) != Forward
    ensures r.Front? ==>
      exists i :: 0 <= i < |Faces| && Faces[i].color == r.color
        && rounded(Faces[i].normal) == Forward
        && forall j :: 0 <= j < i ==> rounded(Faces[j].normal) != Forward
  {
    var i := FacingIndex(rounded, 0);
    if i < |Faces| then Front(Faces[i].color) else Unknown
  }

  /** With the cube unrotated the blue face is at the front. */
  lemma UnrotatedFrontIsBlue()
    ensures FrontFaceColor((v: Vec3) => v) == Front(Blue)
  {
    assert FacingIndex((v: Vec3) => v, 0) == 4;
  }

  /**
   * Once the cube sits in one of its 24 axis-aligned orientations, its
   * rounded rotation sends the six face normals to six distinct axis
   * vectors, and then some face is always at the front.
   */
  lemma AlignedCubeHasFront(rounded: Vec3 -> Vec3)
    requires forall i :: 0 <= i < |Faces| ==> rounded(Faces[i].normal) in Axes
    requires forall i, j :: 0 <= i < j < |Faces| ==> rounded(Faces[i].normal) != rounded(Faces[j].normal)
    ensures FrontFaceColor(rounded) != Unknown
  {
  }

  /**
   * The face `snapToCubeFaceColor` steers to the front: the first table
   * entry with the requested colour. It always exists.
   */
  function FindFace(color: FaceColor): (r: Option<CubeFace>)
    ensures r.Some? && r.value.color == color && r.value in Faces
  {
    FindFaceFrom(color, 0)
  }

  function FindFaceFrom(color: FaceColor, from: nat): (r: Option<CubeFace>)
    requires from <= |Faces|
    ensures r.Some? ==> r.value.color == color && r.value in Faces[from..]
    ensures r.None? ==> forall j :: from <= j < |Faces| ==> Faces[j].color != color
    decreases |Faces| - from
  {
    if from == |Faces| then None
    else if Faces[from].color == color then Some(Faces[from])
    else FindFaceFrom(color, from + 1)
  }
}

=== FILE: cubies.dfy ===
/**
 * Sticker colouring of the 27 cubies and their enumeration.
 *
 * A cubie at grid coordinate (x, y, z) gets six stickers, one per face of
 * the face table and in the same order. A sticker is painted with its
 * face's colour when the cubie lies on that face's outer layer, and black
 * otherwise. The 3x3x3 enumeration walks x, then y, then z over -1, 0, 1
 * and keys each cubie by the string `${x}-${y}-${z}`.
 */
module Cubies {
  import opened Results
  import opened CubeFaces

  datatype Sticker = Black | Paint(color: FaceColor)

  /** One cubie: its React key, its grid coordinate and its six stickers. */
  datatype Cubie = Cubie(key: string, position: Vec3, materials: seq<Sticker>)

  /**
   * The six stickers of the cubie at (x, y, z): sticker `i` carries face
   * `i`'s colour exactly when the coordinate along that face's normal is 1,
   * i.e. when the cubie sits on that face's outer layer.
   */
  function CubieMaterials(x: int, y: int, z: int): (r: seq<Sticker>)
    ensures |r| == |Faces|
    ensures forall i :: 0 <= i < |Faces| ==>
      r[i] == (if Dot(Vec3(x, y, z), Faces[i].normal) == 1 then Paint(Faces[i].color) else Black)
  {
    [
      if x == 1 then Paint(White) else Black,
      if x == -1 then Paint(Yellow) else Black,
      if y == 1 then Paint(Red) else Black,
      if y == -1 then Paint(Orange) else Black,
      if z == 1 then Paint(Blue) else Black,
      if z == -1 then Paint(Green) else Black
    ]
  }

  /** Two stickers on opposite faces of one cubie are never both painted. */
  lemma OppositeStickersExclusive(x: int, y: int, z: int)
    ensures var m := CubieMaterials(x, y, z);
      && (m[0] == Black || m[1] == Black)
      && (m[2] == Black || m[3] == Black)
      && (m[4] == Black || m[5] == Black)
  {
  }

  function CountPainted(s: seq<Sticker>): nat
  {
    if |s| == 0 then 0 else (if s[0].Paint? then 1 else 0) + CountPainted(s[1..])
  }

  function NonZeroCount(p: Vec3): nat
  {
    (if p.x != 0 then 1 else 0) + (if p.y != 0 then 1 else 0) + (if p.z != 0 then 1 else 0)
  }

  predicate InGrid(p: Vec3)
  {
    -1 <= p.x <= 1 && -1 <= p.y <= 1 && -1 <= p.z <= 1
  }

  function Indicator(s: Sticker): nat
  {
    if s.Paint? then 1 else 0
  }

  lemma CountPaintedOfSix(m: seq<Sticker>)
    requires |m| == 6
    ensures CountPainted(m) ==
      Indicator(m[0]) + Indicator(m[1]) + Indicator(m[2]) + Indicator(m[3]) + Indicator(m[4]) + Indicator(m[5])
  {
    var m1 := m[1..];
    var m2 := m1[1..];
    var m3 := m2[1..];
    var m4 := m3[1..];
    var m5 := m4[1..];
    assert CountPainted(m5[1..]) == 0;
    assert CountPainted(m5) == Indicator(m[5]);
    assert CountPainted(m4) == Indicator(m[4]) + Indicator(m[5]);
    assert CountPainted(m3) == Indicator(m[3]) + CountPainted(m4);
    assert CountPainted(m2) == Indicator(m[2]) + CountPainted(m3);
    assert CountPainted(m1) == Indicator(m[1]) + CountPainted(m2);
  }

  /**
   * On the 3x3x3 grid a cubie shows as many painted stickers as it has
   * non-zero coordinates: 3 on a corner, 2 on an edge, 1 on a face centre,
   * none at the core.
   */
  lemma PaintedCountIsNonZeroCount(p: Vec3)
    requires InGrid(p)
    ensures CountPainted(CubieMaterials(p.x, p.y, p.z)) == NonZeroCount(p)
  {
    var m := CubieMaterials(p.x, p.y, p.z);
    CountPaintedOfSix(m);
    assert Indicator(m[0]) + Indicator(m[1]) == if p.x != 0 then 1 else 0;
    assert Indicator(m[2]) + Indicator(m[3]) == if p.y != 0 then 1 else 0;
    assert Indicator(m[4]) + Indicator(m[5]) == if p.z != 0 then 1 else 0;
  }

  // ---- the React key `${x}-${y}-${z}` and a parser that inverts it ----

  predicate IsDigit(c: char)
  {
    '0' <= c <= '9'
  }

  predicate AllDigits(s: string)
  {
    forall i :: 0 <= i < |s| ==> IsDigit(s[i])
  }

  function DigitChar(d: int): (c: char)
    requires 0 <= d < 10
    ensures IsDigit(c)
  {
    ('0' as int + d) as char
  }

  function DigitValue(c: char): int
    requires IsDigit(c)
  {
    c as int - '0' as int
  }

  /** Decimal digits of a natural number, as JavaScript prints it. */
  function ShowNat(n: nat): string
    decreases n
  {
    if n < 10 then [DigitChar(n)] else ShowNat(n / 10) + [DigitChar(n % 10)]
  }

  /** Decimal text of an integer, as a template literal prints it. */
  function Show(n: int): string
  {
    if n < 0 then "-" + ShowNat(-n) else ShowNat(n)
  }

  /** A printed integer is a minus sign exactly for negatives, then at least one digit and nothing else. */
  lemma ShowShape(n: int)
    ensures |Show(n)| > 0 && (Show(n)[0] == '-' <==> n < 0)
    ensures n < 0 ==> |Show(n)| > 1 && AllDigits(Show(n)[1..])
    ensures n >= 0 ==> AllDigits(Show(n))
  {
    ShowNatValue(if n < 0 then -n else n);
    if n < 0 {
      assert Show(n)[1..] == ShowNat(-n);
    }
  }

  /** The key a cubie is rendered under. */
  function Key(p: Vec3): string
  {
    Show(p.x) + "-" + Show(p.y) + "-" + Show(p.z)
  }

  /** The value of an all-digit string read left to right after `acc`. */
  function DigitsValue(s: string, acc: int): int
    requires AllDigits(s)
  {
    if |s| == 0 then acc else DigitsValue(s[1..], acc * 10 + DigitValue(s[0]))
  }

  /** Reads the longest digit prefix of `s` after `acc`; returns its value and the rest. */
  function ParseDigits(s: string, acc: int): (int, string)
  {
    if |s| > 0 && IsDigit(s[0]) then ParseDigits(s[1..], acc * 10 + DigitValue(s[0])) else (acc, s)
  }

  /** Reads an optionally negative decimal integer from the front of `s`. */
  function ParseInt(s: string): Option<(int, string)>
  {
    if |s| > 1 && s[0] == '-' && IsDigit(s[1]) then
      var (v, rest) := ParseDigits(s[1..], 0);
      Some((-v, rest))
    else if |s| > 0 && IsDigit(s[0]) then Some(ParseDigits(s, 0))
    else None
  }

  /** Reads a key back into the coordinate it was printed from. */
  function DecodeKey(s: string): Option<Vec3>
  {
    match ParseInt(s)
    case None => None
    case Some((x, r1)) =>
      if |r1| == 0 || r1[0] != '-' then None
      else match ParseInt(r1[1..])
        case None => None
        case Some((y, r2)) =>
          if |r2| == 0 || r2[0] != '-' then None
          else match ParseInt(r2[1..])
            case None => None
            case Some((z, r3)) => if r3 == [] then Some(Vec3(x, y, z)) else None
  }

  lemma {:induction false} DigitsValueSnoc(s: string, d: char, acc: int)
    requires AllDigits(s) && IsDigit(d)
    ensures AllDigits(s + [d])
    ensures DigitsValue(s + [d], acc) == DigitsValue(s, acc) * 10 + DigitValue(d)
  {
    if |s| > 0 {
      assert (s + [d])[1..] == s[1..] + [d];
      DigitsValueSnoc(s[1..], d, acc * 10 + DigitValue(s[0]));
    }
  }

  lemma {:induction false} ShowNatValue(n: nat)
    ensures |ShowNat(n)| > 0 && AllDigits(ShowNat(n))
    ensures DigitsValue(ShowNat(n), 0) == n
    decreases n
  {
    if n >= 10 {
      ShowNatValue(n / 10);
      DigitsValueSnoc(ShowNat(n / 10), DigitChar(n % 10), 0);
    }
  }

  lemma {:induction false} ParseDigitsStops(s: string, t: string, acc: int)
    requires AllDigits(s)
    requires |t| == 0 || !IsDigit(t[0])
    ensures ParseDigits(s + t, acc) == (DigitsValue(s, acc), t)
  {
    if |s| > 0 {
      assert (s + t)[1..] == s[1..] + t;
      ParseDigitsStops(s[1..], t, acc * 10 + DigitValue(s[0]));
    } else {
      assert s + t == t;
    }
  }

  lemma ParseShow(n: int, t: string)
    requires |t| == 0 || !IsDigit(t[0])
    ensures ParseInt(Show(n) + t) == Some((n, t))
  {
    var d := ShowNat(if n < 0 then -n else n);
    ShowNatValue(if n < 0 then -n else n);
    ParseDigitsStops(d, t, 0);
    assert IsDigit((d + t)[0]);
    if n < 0 {
      assert Show(n) + t == ['-'] + (d + t);
      assert (['-'] + (d + t))[1..] == d + t;
    } else {
      assert Show(n) + t == d + t;
    }
  }

  /** Three integers read in turn, each followed by a dash but the last, decode as a key. */
  lemma DecodeThree(s: string, x: int, s1: string, y: int, s2: string, z: int)
    requires ParseInt(s) == Some((x, "-" + s1))
    requires ParseInt(s1) == Some((y, "-" + s2))
    requires ParseInt(s2) == Some((z, []))
    ensures DecodeKey(s) == Some(Vec3(x, y, z))
  {
    assert ("-" + s1)[1..] == s1;
    assert ("-" + s2)[1..] == s2;
  }

  /** Every cubie key reads back as the coordinate it was printed from. */
  lemma KeyRoundTrip(p: Vec3)
    ensures DecodeKey(Key(p)) == Some(p)
  {
    var s2 := Show(p.z);
    var s1 := Show(p.y) + ("-" + s2);
    var s := Show(p.x) + ("-" + s1);
    assert Key(p) == s;
    ParseShow(p.x, "-" + s1);
    ParseShow(p.y, "-" + s2);
    ParseShow(p.z, []);
    assert s2 + [] == s2;
    DecodeThree(s, p.x, s1, p.y, s2, p.z);
  }

  /** Distinct coordinates get distinct keys. */
  lemma KeyInjective(p: Vec3, q: Vec3)
    ensures Key(p) == Key(q) ==> p == q
  {
    KeyRoundTrip(p);
    KeyRoundTrip(q);
  }

  // ---- the 3x3x3 enumeration ----

  /** The cubie pushed for grid point `p`: keyed by its coordinate, placed at it, coloured by it. */
  function MakeCubie(p: Vec3): Cubie
  {
    Cubie(Key(p), p, CubieMaterials(p.x, p.y, p.z))
  }

  /**
   * The cubie pushed for `p` sits at `p`, its key reads back as `p`, and
   * it has a sticker per face, painted exactly on the faces whose normal
   * points the way `p` lies on the outside of the cube.
   */
  lemma MakeCubieDescribes(p: Vec3)
    ensures MakeCubie(p).position == p
    ensures DecodeKey(MakeCubie(p).key) == Some(p)
    ensures |MakeCubie(p).materials| == |Faces|
    ensures forall i :: 0 <= i < |Faces| ==>
      (MakeCubie(p).materials[i].Paint? <==> Dot(p, Faces[i].normal) == 1)
  {
    KeyRoundTrip(p);
  }

  /** The coordinate of the `k`-th cubie pushed by the x/y/z loop nest. */
  function GridPosition(k: int): Vec3
  {
    Vec3(k / 9 - 1, k / 3 % 3 - 1, k % 3 - 1)
  }

  function GridOrdinal(p: Vec3): int
  {
    9 * (p.x + 1) + 3 * (p.y + 1) + (p.z + 1)
  }

  /** Positions and ordinals are inverse on the grid. */
  lemma GridOrdinalInverse(p: Vec3, k: int)
    ensures InGrid(p) ==> 0 <= GridOrdinal(p) < 27 && GridPosition(GridOrdinal(p)) == p
    ensures 0 <= k < 27 ==> InGrid(GridPosition(k)) && GridOrdinal(GridPosition(k)) == k
  {
  }

  /** The layout the loop nest produces. */
  predicate IsCubeLayout(cubies: seq<Cubie>)
  {
    && |cubies| == 27
    && IsLayoutPrefix(cubies)
  }

  /** The layout's keys are pairwise distinct. */
  lemma CubeLayoutKeysDistinct(cubies: seq<Cubie>)
    requires IsCubeLayout(cubies)
    ensures forall i, j :: 0 <= i < j < |cubies| ==> cubies[i].key != cubies[j].key
  {
    forall i, j | 0 <= i < j < |cubies| ensures cubies[i].key != cubies[j].key {
      var p, q := GridPosition(i), GridPosition(j);
      GridOrdinalInverse(p, i);
      GridOrdinalInverse(q, j);
      assert p != q;
      KeyInjective(p, q);
    }
  }

  /** The cubie at `p`'s ordinal sits at `p`. */
  lemma CubeLayoutPlaces(cubies: seq<Cubie>, p: Vec3)
    requires IsCubeLayout(cubies) && InGrid(p)
    ensures 0 <= GridOrdinal(p) < |cubies| && cubies[GridOrdinal(p)].position == p
  {
    GridOrdinalInverse(p, 0);
  }

  /** Every grid coordinate appears in the layout. */
  lemma CubeLayoutCoversGrid(cubies: seq<Cubie>)
    requires IsCubeLayout(cubies)
    ensures forall p :: InGrid(p) ==> exists k :: 0 <= k < |cubies| && cubies[k].position == p
  {
    forall p | InGrid(p) ensures exists k :: 0 <= k < |cubies| && cubies[k].position == p {
      CubeLayoutPlaces(cubies, p);
    }
  }

  /** The first `|cubies|` cubies of the layout, in loop order. */
  predicate IsLayoutPrefix(cubies: seq<Cubie>)
  {
    forall k :: 0 <= k < |cubies| ==> cubies[k] == MakeCubie(GridPosition(k))
  }

  lemma LayoutPrefixGrows(cubies: seq<Cubie>, p: Vec3)
    requires IsLayoutPrefix(cubies) && InGrid(p) && GridOrdinal(p) == |cubies|
    ensures IsLayoutPrefix(cubies + [MakeCubie(p)])
  {
    var grown := cubies + [MakeCubie(p)];
    forall k | 0 <= k < |grown| ensures grown[k] == MakeCubie(GridPosition(k)) {
      if k < |cubies| {
        assert grown[k] == cubies[k];
      } else {
        OrdinalPlacesCubie(p, k);
      }
    }
  }

  /** The cubie built at a grid point's ordinal is the cubie for that point. */
  lemma OrdinalPlacesCubie(p: Vec3, k: int)
    requires InGrid(p) && k == GridOrdinal(p)
    ensures MakeCubie(GridPosition(k)) == MakeCubie(p)
  {
    GridOrdinalInverse(p, 0);
  }

  /** The x/y/z loop nest of the `Cubies` component. */
  method BuildCubies() returns (cubies: seq<Cubie>)
    ensures IsCubeLayout(cubies)
    ensures forall i, j :: 0 <= i < j < |cubies| ==> cubies[i].key != cubies[j].key
    ensures forall p :: InGrid(p) ==> exists k :: 0 <= k < |cubies| && cubies[k].position == p
  {
    cubies := [];
    var x := -1;
    while x <= 1
      invariant -1 <= x <= 2
      invariant |cubies| == 9 * (x + 1)
      invariant IsLayoutPrefix(cubies)
    {
      var y := -1;
      while y <= 1
        invariant -1 <= y <= 2
        invariant |cubies| == 9 * (x + 1) + 3 * (y + 1)
        invariant IsLayoutPrefix(cubies)
      {
        var z := -1;
        while z <= 1
          invariant -1 <= z <= 2
          invariant |cubies| == 9 * (x + 1) + 3 * (y + 1) + (z + 1)
          invariant IsLayoutPrefix(cubies)
        {
          LayoutPrefixGrows(cubies, Vec3(x, y, z));
          cubies := cubies + [MakeCubie(Vec3(x, y, z))];
          z := z + 1;
        }
        y := y + 1;
      }
      x := x + 1;
    }
    CubeLayoutKeysDistinct(cubies);
    CubeLayoutCoversGrid(cubies);
  }
}

=== FILE: loop_math.dfy ===
/**
 * The arithmetic under the vertical loop: `gsap.utils.wrap` on indices and
 * on times, the circular distance between two points of the timeline, and
 * the downward nearest-label scan `getClosest`.
 */
module LoopMath {

  function Abs(x: real): real
  {
    if x < 0.0 then -x else x
  }

  function AbsInt(x: int): int
  {
    if x < 0 then -x else x
  }

  /** `gsap.utils.wrap(0, n, i)`: `i` folded into [0, n). */
  function WrapIndex(i: int, n: int): (r: int)
    requires n > 0
    ensures 0 <= r < n
    ensures 0 <= i < n ==> r == i
  {
    i % n
  }

  /** The wrapped index is the one value in [0, n) that differs from `i` by whole lengths. */
  lemma WrapIndexUnique(i: int, n: int, k: int, s: int)
    requires n > 0 && 0 <= s < n && i == s + k * n
    ensures WrapIndex(i, n) == s
  {
    var q := i / n;
    assert i == q * n + i % n;
    assert (q - k) * n == s - i % n;
    MultipleInOpenRange(q - k, n);
  }

  lemma MultipleInOpenRange(m: int, n: int)
    requires n > 0 && -n < m * n < n
    ensures m == 0
  {
    if m >= 1 {
      MulAtLeast(m, n);
    } else if m <= -1 {
      MulAtLeast(-m, n);
    }
  }

  lemma MulAtLeast(m: int, n: int)
    requires m >= 1 && n > 0
    ensures m * n >= n
  {
  }

  /** Shifting by one whole length does not change the wrapped index. */
  lemma WrapIndexShift(i: int, n: int)
    requires n > 0
    ensures WrapIndex(i + n, n) == WrapIndex(i, n)
    ensures WrapIndex(i - n, n) == WrapIndex(i, n)
  {
    var r := WrapIndex(i, n);
    var k := i / n;
    assert i == r + k * n;
    WrapIndexUnique(i + n, n, k + 1, r);
    WrapIndexUnique(i - n, n, k - 1, r);
  }

  /** One step back or forward from an in-range index, wrapped. */
  lemma WrapIndexNeighbours(c: int, n: int)
    requires 0 <= c < n
    ensures WrapIndex(c + 1, n) == if c + 1 == n then 0 else c + 1
    ensures WrapIndex(c - 1, n) == if c == 0 then n - 1 else c - 1
  {
    if c + 1 == n {
      WrapIndexUnique(c + 1, n, 1, 0);
    }
    if c == 0 {
      WrapIndexUnique(c - 1, n, -1, n - 1);
    }
  }

  lemma FloorBounds(q: real)
    ensures q.Floor as real <= q < q.Floor as real + 1.0
  {
  }

  /** The time `k` whole loops of length `d` take. */
  function LoopsTime(k: real, d: real): real
  {
    k * d
  }

  lemma LoopsTimeMono(a: real, b: real, d: real)
    requires d > 0.0
    ensures a <= b ==> LoopsTime(a, d) <= LoopsTime(b, d)
    ensures a < b ==> LoopsTime(a, d) < LoopsTime(b, d)
  {
  }

  lemma LoopsTimeStep(k: real, d: real)
    ensures LoopsTime(k + 1.0, d) == LoopsTime(k, d) + d
  {
  }

  lemma QuotientTimesDivisor(t: real, d: real)
    requires d > 0.0
    ensures LoopsTime(t / d, d) == t
  {
  }

  /** `gsap.utils.wrap(0, d)` on times: `t` folded into [0, d). */
  function TimeWrap(t: real, d: real): (r: real)
    requires d > 0.0
    ensures 0.0 <= r < d
    ensures 0.0 <= t < d ==> r == t
  {
    TimeWrapRange(t, d);
    t - LoopsTime((t / d).Floor as real, d)
  }

  lemma TimeWrapRange(t: real, d: real)
    requires d > 0.0
    ensures 0.0 <= t - LoopsTime((t / d).Floor as real, d) < d
    ensures 0.0 <= t < d ==> (t / d).Floor == 0
  {
    var q := t / d;
    var f := q.Floor as real;
    FloorBounds(q);
    QuotientTimesDivisor(t, d);
    LoopsTimeMono(f, q, d);
    LoopsTimeMono(q, f + 1.0, d);
    LoopsTimeStep(f, d);
    if 0.0 <= t < d {
      FloorOfQuotient(t, d, 0);
    }
  }

  /** The wrapped time is the one value in [0, d) that differs from `t` by whole loops. */
  lemma TimeWrapUnique(t: real, d: real, k: int, s: real)
    requires d > 0.0 && 0.0 <= s < d && t == s + LoopsTime(k as real, d)
    ensures TimeWrap(t, d) == s
  {
    LoopsTimeStep(k as real, d);
    FloorOfQuotient(t, d, k);
  }

  /** A time between `k` and `k + 1` loops has `k` whole loops. */
  lemma FloorOfQuotient(t: real, d: real, k: int)
    requires d > 0.0 && LoopsTime(k as real, d) <= t < LoopsTime(k as real + 1.0, d)
    ensures (t / d).Floor == k
  {
    var q := t / d;
    QuotientTimesDivisor(t, d);
    if q < k as real {
      LoopsTimeMono(q, k as real, d);
    }
    if q >= k as real + 1.0 {
      LoopsTimeMono(k as real + 1.0, q, d);
    }
    assert k as real <= q < k as real + 1.0;
    FloorBounds(q);
    var f := q.Floor;
    assert f as real < k as real + 1.0 && k as real < f as real + 1.0;
    assert f < k + 1 && k < f + 1;
  }

  /** A shift by one whole period, either way, is undone by the wrap. */
  lemma TimeWrapOfShift(s: real, d: real)
    requires d > 0.0 && 0.0 <= s < d
    ensures TimeWrap(s + d, d) == s
    ensures TimeWrap(s - d, d) == s
  {
    TimeWrapUnique(s + d, d, 1, s);
    TimeWrapUnique(s - d, d, -1, s);
  }

  /**
   * The distance `getClosest` measures between a label time `v` and the
   * playhead `t` on a loop of length `wrap`: the straight distance, or
   * the distance the other way round when that is more than half a loop.
   */
  function Dist(v: real, t: real, wrap: real): (d: real)
    ensures d <= Abs(v - t) && d <= wrap / 2.0
    ensures d == Abs(v - t) || d == wrap - Abs(v - t)
    ensures 2.0 * Abs(v - t) <= wrap ==> d == Abs(v - t)
  {
    var d := Abs(v - t);
    if d > wrap / 2.0 then wrap - d else d
  }

  /** Between a label in [0, wrap) and a playhead in [0, wrap] the distance is a true circular distance. */
  lemma DistBounds(v: real, t: real, wrap: real)
    requires 0.0 <= v < wrap && 0.0 <= t <= wrap
    ensures 0.0 <= Dist(v, t, wrap) <= wrap / 2.0
    ensures Dist(v, t, wrap) == 0.0 <==> v == t || (v == 0.0 && t == wrap)
  {
  }

  /**
   * The distance folds only once: two points more than a whole loop apart
   * get a negative distance, so it is a circular distance only for the
   * in-range playheads of `DistBounds`.
   */
  lemma DistFoldsOnce(v: real, t: real, wrap: real)
    requires wrap > 0.0 && Abs(v - t) > wrap
    ensures Dist(v, t, wrap) < 0.0
  {
  }

  /** The initial `closest` of the scan: a label this far away or farther is never chosen. */
  const Sentinel: real := 10000000000.0

  /** What the scan has established once it has looked at `values[i..]`. */
  predicate ScanState(values: seq<real>, value: real, wrap: real, i: nat, closest: real, index: nat)
  {
    && i <= |values|
    && closest <= Sentinel
    && (forall j :: i <= j < |values| ==> closest <= Dist(values[j], value, wrap))
    && (if closest == Sentinel then index == 0
        else
          && i <= index < |values|
          && closest == Dist(values[index], value, wrap)
          && forall j :: index < j < |values| ==> closest < Dist(values[j], value, wrap))
  }

  /**
   * The `while (i--)` loop of `getClosest`: visits `values[i-1]` down to
   * `values[0]`, taking an index only when it is strictly closer than the
   * best so far.
   */
  function Scan(values: seq<real>, value: real, wrap: real, i: nat, closest: real, index: nat): (r: nat)
    requires ScanState(values, value, wrap, i, closest, index)
    ensures |values| == 0 ==> r == 0
    ensures |values| > 0 ==> r < |values|
    ensures |values| > 0 ==> forall j :: 0 <= j < |values| && Dist(values[j], value, wrap) < Sentinel ==>
      Dist(values[r], value, wrap) <= Dist(values[j], value, wrap)
    ensures |values| > 0 ==> forall j :: r < j < |values| && Dist(values[j], value, wrap) < Sentinel ==>
      Dist(values[r], value, wrap) < Dist(values[j], value, wrap)
    decreases i
  {
    if i == 0 then index
    else
      var d := Dist(values[i - 1], value, wrap);
      if d < closest then Scan(values, value, wrap, i - 1, d, i - 1)
      else Scan(values, value, wrap, i - 1, closest, index)
  }

  /**
   * `getClosest(values, value, wrap)`: 0 on an empty array; otherwise an
   * index whose label is at least as close as every label nearer than the
   * sentinel, and strictly closer than every such label at a higher index,
   * so ties go to the highest index.
   */
  function Closest(values: seq<real>, value: real, wrap: real): (r: nat)
    ensures |values| == 0 ==> r == 0
    ensures |values| > 0 ==> r < |values|
    ensures |values| > 0 ==> forall j :: 0 <= j < |values| && Dist(values[j], value, wrap) < Sentinel ==>
      Dist(values[r], value, wrap) <= Dist(values[j], value, wrap)
    ensures |values| > 0 ==> forall j :: r < j < |values| && Dist(values[j], value, wrap) < Sentinel ==>
      Dist(values[r], value, wrap) < Dist(values[j], value, wrap)
  {
    Scan(values, value, wrap, |values|, Sentinel, 0)
  }
}

=== FILE: navigation.dfy ===
/**
 * Face-index cycling of the navigation context.
 *
 * The current face is an index into a fixed colour order. `Next` and
 * `Previous` step it modulo the order's length with JavaScript's `%`,
 * and `GetIndex` maps the colour now facing the viewer back to an index,
 * or -1 when no face is at the front. Because `GetIndex`'s -1 is stored
 * as the current face after a drag, the stepping functions are specified
 * from -1 upwards, not only on [0,6).
 */
module Navigation {
  import opened CubeFaces

  /** The order in which the buttons walk through the faces. */
  const NavigationPaths: seq<FaceColor> := [White, Blue, Red, Yellow, Green, Orange]

  /** JavaScript's `%` on integers: the remainder takes the sign of the dividend. */
  function JsRem(a: int, b: int): (r: int)
    requires b > 0
    ensures a >= 0 ==> 0 <= r < b
    ensures a < 0 ==> -b < r <= 0
  {
    if a >= 0 then a % b else -((-a) % b)
  }

  /** A multiple of six leaves no remainder. */
  lemma MultipleOfSix(k: int)
    ensures (6 * k) % 6 == 0
  {
  }

  /** The remainder by six differs from its dividend by whole sixes, plus `shift` when the dividend was shifted by `shift`. */
  lemma JsRemSixCongruent(a: int, shift: int)
    requires shift % 6 == 0
    ensures (JsRem(a, 6) - (a - shift)) % 6 == 0
  {
    var k := shift / 6;
    assert shift == 6 * k;
    if a < 0 {
      var q := (-a) / 6;
      assert -a == 6 * q + (-a) % 6;
      assert JsRem(a, 6) - (a - shift) == 6 * (q + k);
      MultipleOfSix(q + k);
    } else {
      var q := a / 6;
      assert a == 6 * q + a % 6;
      assert JsRem(a, 6) - (a - shift) == 6 * (k - q);
      MultipleOfSix(k - q);
    }
  }

  /** The face after `face`; on every stored face (-1 included) it is a valid index one step on. */
  function Next(face: int): (r: int)
    ensures -1 <= face ==> 0 <= r < |NavigationPaths|
    ensures (r - (face + 1)) % |NavigationPaths| == 0
  {
    JsRemSixCongruent(face + 1, 0);
    JsRem(face + 1, |NavigationPaths|)
  }

  /** The face before `face`; on every stored face (-1 included) it is a valid index one step back. */
  function Previous(face: int): (r: int)
    ensures -1 <= face ==> 0 <= r < |NavigationPaths|
    ensures (r - (face - 1)) % |NavigationPaths| == 0
  {
    JsRemSixCongruent(face + 5, 6);
    JsRem(face + 5, |NavigationPaths|)
  }

  /** `Next` and `Previous` undo each other on the valid indices. */
  lemma NextPreviousInverse(face: int)
    requires 0 <= face < |NavigationPaths|
    ensures Previous(Next(face)) == face
    ensures Next(Previous(face)) == face
  {
  }

  /** `k` presses of the next button from `face`. */
  function NextTimes(face: int, k: nat): int
  {
    if k == 0 then face else Next(NextTimes(face, k - 1))
  }

  /** From a valid index, `k` presses advance by `k` modulo six. */
  lemma {:induction false} NextTimesAdvances(face: int, k: nat)
    requires 0 <= face < |NavigationPaths|
    ensures NextTimes(face, k) == (face + k) % |NavigationPaths|
  {
    if k > 0 {
      NextTimesAdvances(face, k - 1);
      NextOfValid((face + k - 1) % |NavigationPaths|);
      ModSixStep(face + k - 1);
    }
  }

  /** On a valid index the next button steps up by one, from the last face back to the first. */
  lemma NextOfValid(m: int)
    requires 0 <= m < |NavigationPaths|
    ensures Next(m) == if m == 5 then 0 else m + 1
  {
  }

  /** Adding one to a non-negative number steps its remainder by six the same way. */
  lemma ModSixStep(a: int)
    requires a >= 0
    ensures (a + 1) % 6 == if a % 6 == 5 then 0 else a % 6 + 1
  {
    assert a == 6 * (a / 6) + a % 6;
  }

  /** Six presses of the next button come back to the starting face. */
  lemma NextSixTimesIsIdentity(face: int)
    requires 0 <= face < |NavigationPaths|
    ensures NextTimes(face, 6) == face
  {
    NextTimesAdvances(face, 6);
  }

  /** The order lists every colour exactly once. */
  lemma NavigationPathsArePermutation()
    ensures |NavigationPaths| == 6
    ensures forall i, j :: 0 <= i < j < |NavigationPaths| ==> NavigationPaths[i] != NavigationPaths[j]
    ensures forall c: FaceColor :: c in NavigationPaths
  {
    forall c: FaceColor ensures c in NavigationPaths {
      var i := match c
        case White => 0 case Blue => 1 case Red => 2
        case Yellow => 3 case Green => 4 case Orange => 5;
      assert NavigationPaths[i] == c;
    }
  }

  /** `Array.prototype.indexOf`: the first position holding `c`, or -1. */
  function IndexOf(s: seq<FaceColor>, c: FaceColor): (r: int)
    ensures r == -1 <==> c !in s
    ensures r != -1 ==> 0 <= r < |s| && s[r] == c && c !in s[..r]
  {
    if |s| == 0 then -1
    else if s[0] == c then 0
    else
      var k := IndexOf(s[1..], c);
      assert s[1..] == s[1..][..|s| - 1];
      if k == -1 then -1
      else
        assert s[..k + 1] == [s[0]] + s[1..][..k];
        k + 1
  }

  /**
   * The index of the colour at the front: -1 exactly when no face is at
   * the front, otherwise the position of that colour in the navigation order.
   */
  function GetIndex(rounded: Vec3 -> Vec3): (r: int)
    ensures r == -1 <==> FrontFaceColor(rounded) == Unknown
    ensures r != -1 ==> 0 <= r < |NavigationPaths| && NavigationPaths[r] == FrontFaceColor(rounded).color
  {
    match FrontFaceColor(rounded)
    case Unknown => -1
    case Front(c) =>
      NavigationPathsArePermutation();
      IndexOf(NavigationPaths, c)
  }
}

=== FILE: results.dfy ===
/** Failure-carrying return values shared by the other modules. */
module Results {

  /** A value that may be absent, as `Array.prototype.find` or an optional callback argument. */
  datatype Option<+T> = None | Some(value: T)

  /** Either a value or the reason it could not be produced. */
  datatype Result<+T, +E> = Success(value: T) | Failure(error: E)
}

=== FILE: vertical_loop.dfy ===
/**
 * The navigator of the vertical loop.
 *
 * The animation timeline is reduced to its playhead and its duration; the
 * label times (the moment each item reaches the home slot) are taken as
 * given, one per item and each in [0, duration). On top of them sits the
 * navigator's own state: the committed index, the dirty flag, and the last
 * index reported to the optional change observer.
 */
module VerticalLoop {
  import opened Results
  import opened LoopMath

  datatype Loop = Loop(
    times: seq<real>,
    duration: real,
    playhead: real,
    curIndex: int,
    indexIsDirty: bool,
    lastIndex: int)

  /** The states a loop can be in once built: the timeline's geometry and the navigator's indices agree. */
  predicate Valid(l: Loop)
  {
    && |l.times| >= 1
    && l.duration > 0.0
    && (forall i :: 0 <= i < |l.times| ==> 0.0 <= l.times[i] < l.duration)
    && 0.0 <= l.playhead <= l.duration
    && 0 <= l.curIndex < |l.times|
    && 0 <= l.lastIndex < |l.times|
  }

  /** No two items reach the home slot at the same moment. */
  predicate DistinctTimes(times: seq<real>)
  {
    forall i, j :: 0 <= i < j < |times| ==> times[i] != times[j]
  }

  datatype BuildError = NoItems

  /** A loop after a step, and the index the change observer was called with during it, if any. */
  datatype Notified = Notified(loop: Loop, fired: Option<int>)

  /**
   * Building the loop: an empty item list fails (the source dereferences
   * its first item). Otherwise the playhead starts at 0, the closest label
   * is committed, recorded as the last reported index, and reported once
   * to the observer when there is one.
   */
  function Create(times: seq<real>, duration: real, observed: bool): (r: Result<Notified, BuildError>)
    requires duration > 0.0
    requires forall i :: 0 <= i < |times| ==> 0.0 <= times[i] < duration
    ensures r.Failure? <==> |times| == 0
    ensures r.Success? ==>
      var l := r.value.loop;
      && Valid(l)
      && l.times == times && l.duration == duration && l.playhead == 0.0
      && !l.indexIsDirty
      && l.lastIndex == l.curIndex
      && (forall j :: 0 <= j < |times| && Dist(times[j], 0.0, duration) < Sentinel ==>
            Dist(times[l.curIndex], 0.0, duration) <= Dist(times[j], 0.0, duration))
      && (forall j :: l.curIndex < j < |times| && Dist(times[j], 0.0, duration) < Sentinel ==>
            Dist(times[l.curIndex], 0.0, duration) < Dist(times[j], 0.0, duration))
      && r.value.fired == (if observed then Some(l.curIndex) else None)
  {
    if |times| == 0 then Failure(NoItems)
    else
      var cur := Closest(times, 0.0, duration);
      var l := Loop(times, duration, 0.0, cur, false, cur);
      Success(Notified(l, if observed then Some(cur) else None))
  }

  // ---- toIndex ----

  /**
   * The shortest-direction adjustment: a target more than half a loop away
   * from `cur` is moved one whole length towards it. For targets within one
   * and a half lengths (every target the callers pass: an index, `cur ± 1`,
   * or -1) the resulting step is at most half a loop.
   */
  function ShortestTarget(index: int, cur: int, n: int): (a: int)
    requires n >= 1
    ensures a == index || a == index - n || a == index + n
    ensures 2 * AbsInt(index - cur) <= n ==> a == index
    ensures 2 * AbsInt(index - cur) <= 3 * n ==> 2 * AbsInt(a - cur) <= n
  {
    if 2 * AbsInt(index - cur) > n then (if index > cur then index - n else index + n)
    else index
  }

  /**
   * The label time of the new item, moved by one period when it lies on
   * the wrong side of the playhead for the direction of travel. Moving to
   * a higher index then goes forward by at most one period; moving to a
   * lower index goes back by less than one; staying put keeps the label.
   */
  function CorrectedTime(time: real, playhead: real, index: int, cur: int, duration: real): (t: real)
    ensures t == time || t == time + duration || t == time - duration
    ensures index == cur ==> t == time
    ensures 0.0 <= time < duration && 0.0 <= playhead < duration ==>
      && (index > cur ==> playhead < t <= playhead + duration)
      && (index < cur ==> playhead - duration < t <= playhead)
  {
    if (time > playhead) != (index > cur) && index != cur then
      time + (if index > cur then duration else -duration)
    else time
  }

  /**
   * What `toIndex` hands to the timeline: an instant seek (a zero
   * duration), or a tween to a target time, with the time-wrapping
   * modifier installed when the target lies outside [0, duration].
   */
  datatype Motion = Seek(to: real) | Tween(target: real, wrapModifier: bool)

  /** A loop after a `toIndex` call, the motion handed to the timeline, and the index the observer was called with, if any. */
  datatype Step = Step(loop: Loop, motion: Motion, fired: Option<int>)

  /**
   * `toIndex(index, vars)`. The committed index is `index` folded into
   * [0, n), whatever the shortest-direction adjustment did. An instant
   * move lands the playhead exactly on that item's label; the seek is a
   * timeline update like any other, so it runs the observer's callback at
   * the new playhead. A tween leaves the playhead where it is, aims at a
   * copy of the label at most one period away, and calls nobody yet. The
   * dirty flag is untouched.
   */
  function ToIndex(l: Loop, index: int, instant: bool, observed: bool): (s: Step)
    requires Valid(l)
    ensures Valid(s.loop)
    ensures s.loop.curIndex == WrapIndex(index, |l.times|)
    ensures s.loop.times == l.times && s.loop.duration == l.duration
    ensures s.loop.indexIsDirty == l.indexIsDirty
    ensures instant ==> s.motion.Seek? && s.loop.playhead == s.motion.to == l.times[s.loop.curIndex]
    ensures instant ==>
      Notified(s.loop, s.fired) == Frame(l.(curIndex := s.loop.curIndex), s.motion.to, observed)
    ensures !instant ==>
      && s.motion.Tween? && s.loop.playhead == l.playhead
      && s.loop.lastIndex == l.lastIndex && s.fired == None
    ensures s.motion.Tween? ==>
      && (s.motion.target == l.times[s.loop.curIndex]
          || s.motion.target == l.times[s.loop.curIndex] + l.duration
          || s.motion.target == l.times[s.loop.curIndex] - l.duration)
      && (s.motion.wrapModifier <==> s.motion.target < 0.0 || s.motion.target > l.duration)
  {
    var n := |l.times|;
    var a := ShortestTarget(index, l.curIndex, n);
    var newIndex := WrapIndex(a, n);
    var time := l.times[newIndex];
    var target := CorrectedTime(time, l.playhead, a, l.curIndex, l.duration);
    var committed := l.(curIndex := newIndex);
    WrapIndexShift(index, n);
    TimeWrapOfShift(time, l.duration);
    if instant then
      var to := TimeWrap(target, l.duration);
      var u := Frame(committed, to, observed);
      Step(u.loop, Seek(to), u.fired)
    else Step(committed, Tween(target, target < 0.0 || target > l.duration), None)
  }

  /** `next(vars)`: `toIndex(curIndex + 1)`, which commits the following index cyclically. */
  function Next(l: Loop, instant: bool, observed: bool): (s: Step)
    requires Valid(l)
    ensures Valid(s.loop)
    ensures s.loop.curIndex == if l.curIndex + 1 == |l.times| then 0 else l.curIndex + 1
  {
    WrapIndexNeighbours(l.curIndex, |l.times|);
    ToIndex(l, l.curIndex + 1, instant, observed)
  }

  /** `previous(vars)`: `toIndex(curIndex - 1)`, which commits the preceding index cyclically. */
  function Previous(l: Loop, instant: bool, observed: bool): (s: Step)
    requires Valid(l)
    ensures Valid(s.loop)
    ensures s.loop.curIndex == if l.curIndex == 0 then |l.times| - 1 else l.curIndex - 1
  {
    WrapIndexNeighbours(l.curIndex, |l.times|);
    ToIndex(l, l.curIndex - 1, instant, observed)
  }

  /** The motion a `toIndex` step hands over: a seek already done, or a tween aimed at a copy of the committed label. */
  predicate Aims(l: Loop, m: Motion)
    requires Valid(l)
  {
    match m
    case Seek(to) => l.playhead == to == l.times[l.curIndex]
    case Tween(target, wrapModifier) =>
      && (target == l.times[l.curIndex]
          || target == l.times[l.curIndex] + l.duration
          || target == l.times[l.curIndex] - l.duration)
      && (wrapModifier <==> target < 0.0 || target > l.duration)
  }

  /**
   * The motion run to completion. A seek is already complete. A tween's
   * last frame sets the playhead at its target, read through the wrap
   * modifier when one is installed, and like every frame runs the
   * observer's update there. The playhead then rests on the committed
   * item's label, or at the very end of the timeline when that label is 0.
   */
  function Settle(l: Loop, m: Motion, observed: bool): (r: Notified)
    requires Valid(l) && Aims(l, m)
    ensures Valid(r.loop)
    ensures r.loop == l.(playhead := r.loop.playhead, lastIndex := r.loop.lastIndex)
    ensures r.loop.playhead == l.times[l.curIndex]
      || (l.times[l.curIndex] == 0.0 && r.loop.playhead == l.duration)
    ensures m.Seek? ==> r == Notified(l, None)
    ensures m.Tween? ==> r == Frame(l, r.loop.playhead, observed)
  {
    match m
    case Seek(_) => Notified(l, None)
    case Tween(target, wrapModifier) =>
      TimeWrapOfShift(l.times[l.curIndex], l.duration);
      Frame(l, if wrapModifier then TimeWrap(target, l.duration) else target, observed)
  }

  // ---- closestIndex, current and the change observer ----

  datatype Query = Query(loop: Loop, index: int)

  /**
   * `closestIndex(setCurrent)`: the item whose label is nearest the
   * playhead (ties to the highest index). Without `setCurrent` nothing
   * changes; with it the index is committed and the dirty flag cleared.
   */
  function ClosestIndex(l: Loop, commit: bool): (q: Query)
    requires Valid(l)
    ensures Valid(q.loop)
    ensures 0 <= q.index < |l.times|
    ensures forall j :: 0 <= j < |l.times| && Dist(l.times[j], l.playhead, l.duration) < Sentinel ==>
      Dist(l.times[q.index], l.playhead, l.duration) <= Dist(l.times[j], l.playhead, l.duration)
    ensures forall j :: q.index < j < |l.times| && Dist(l.times[j], l.playhead, l.duration) < Sentinel ==>
      Dist(l.times[q.index], l.playhead, l.duration) < Dist(l.times[j], l.playhead, l.duration)
    ensures !commit ==> q.loop == l
    ensures commit ==> q.loop == l.(curIndex := q.index, indexIsDirty := false)
  {
    var i := Closest(l.times, l.playhead, l.duration);
    if commit then Query(l.(curIndex := i, indexIsDirty := false), i) else Query(l, i)
  }

  /** For a loop shorter than the sentinel allows, every label is a candidate and the result is the nearest outright. */
  lemma ClosestIsNearest(l: Loop, commit: bool)
    requires Valid(l) && l.duration < 2.0 * Sentinel
    ensures var q := ClosestIndex(l, commit);
      forall j :: 0 <= j < |l.times| ==>
        Dist(l.times[q.index], l.playhead, l.duration) <= Dist(l.times[j], l.playhead, l.duration)
  {
    forall j | 0 <= j < |l.times| {
      DistBounds(l.times[j], l.playhead, l.duration);
    }
  }

  /** `current()`: the committed index, or a fresh `closestIndex(true)` when the flag says it is stale. */
  function Current(l: Loop): (q: Query)
    requires Valid(l)
    ensures Valid(q.loop) && 0 <= q.index < |l.times|
    ensures !l.indexIsDirty ==> q.loop == l && q.index == l.curIndex
    ensures l.indexIsDirty ==> q.loop.curIndex == q.index && !q.loop.indexIsDirty
    ensures l.indexIsDirty ==> q == ClosestIndex(l, true)
  {
    if l.indexIsDirty then ClosestIndex(l, true) else Query(l, l.curIndex)
  }

  /**
   * One timeline update with the playhead at `t`: the `onUpdate` callback,
   * installed only when there is an observer, reports the closest index
   * when it differs from the last one reported, recording it first.
   */
  function Frame(l: Loop, t: real, observed: bool): (u: Notified)
    requires Valid(l) && 0.0 <= t <= l.duration
    ensures Valid(u.loop)
    ensures u.loop == l.(playhead := t, lastIndex := u.loop.lastIndex)
    ensures u.fired.Some? <==> observed && ClosestIndex(l.(playhead := t), false).index != l.lastIndex
    ensures u.fired.Some? ==> u.fired.value == ClosestIndex(l.(playhead := t), false).index
    ensures u.loop.lastIndex == if u.fired.Some? then u.fired.value else l.lastIndex
  {
    var moved := l.(playhead := t);
    if !observed then Notified(moved, None)
    else
      var i := ClosestIndex(moved, false).index;
      if l.lastIndex != i then Notified(moved.(lastIndex := i), Some(i)) else Notified(moved, None)
  }

  predicate InTimeline(ts: seq<real>, duration: real)
  {
    forall i :: 0 <= i < |ts| ==> 0.0 <= ts[i] <= duration
  }

  datatype Run = Run(loop: Loop, fired: seq<int>)

  /**
   * A sequence of timeline updates: each moves the playhead and may call
   * the observer; the committed index, the labels and the flag stay put.
   */
  function RunFrames(l: Loop, ts: seq<real>, observed: bool): (r: Run)
    requires Valid(l) && InTimeline(ts, l.duration)
    ensures Valid(r.loop)
    ensures r.loop.times == l.times && r.loop.duration == l.duration
    ensures r.loop.curIndex == l.curIndex && r.loop.indexIsDirty == l.indexIsDirty
    decreases |ts|
  {
    if |ts| == 0 then Run(l, [])
    else
      var u := Frame(l, ts[0], observed);
      var rest := RunFrames(u.loop, ts[1..], observed);
      var head := if u.fired.Some? then [u.fired.value] else [];
      Run(rest.loop, head + rest.fired)
  }

  /**
   * Over any sequence of updates the observer is never called twice in a
   * row with the same index, its first call differs from the index
   * reported before, and the recorded last index is the last one reported.
   */
  lemma {:induction false} RunFramesNeverRepeats(l: Loop, ts: seq<real>, observed: bool)
    requires Valid(l) && InTimeline(ts, l.duration)
    ensures var r := RunFrames(l, ts, observed);
      && r.loop.lastIndex == (if |r.fired| == 0 then l.lastIndex else r.fired[|r.fired| - 1])
      && (|r.fired| > 0 ==> r.fired[0] != l.lastIndex)
      && forall k :: 0 <= k < |r.fired| - 1 ==> r.fired[k] != r.fired[k + 1]
    decreases |ts|
  {
    if |ts| > 0 {
      var u := Frame(l, ts[0], observed);
      RunFramesNeverRepeats(u.loop, ts[1..], observed);
      var rest := RunFrames(u.loop, ts[1..], observed);
      var head := if u.fired.Some? then [u.fired.value] else [];
      JoinRuns(l.lastIndex, u.loop.lastIndex, head, rest.fired, rest.loop.lastIndex);
    }
  }

  /**
   * The bookkeeping of one frame followed by the rest of a run: at most one
   * index fired first, differing from the index recorded before it, in
   * front of a run without repeats that starts apart from it.
   */
  lemma JoinRuns(prev: int, mid: int, head: seq<int>, rest: seq<int>, last: int)
    requires |head| <= 1
    requires mid == if |head| == 1 then head[0] else prev
    requires |head| == 1 ==> head[0] != prev
    requires last == if |rest| == 0 then mid else rest[|rest| - 1]
    requires |rest| > 0 ==> rest[0] != mid
    requires forall k :: 0 <= k < |rest| - 1 ==> rest[k] != rest[k + 1]
    ensures last == if |head + rest| == 0 then prev else (head + rest)[|head + rest| - 1]
    ensures |head + rest| > 0 ==> (head + rest)[0] != prev
    ensures forall k :: 0 <= k < |head + rest| - 1 ==> (head + rest)[k] != (head + rest)[k + 1]
  {
    if |head| == 1 {
      forall k | 0 <= k < |head + rest| - 1 ensures (head + rest)[k] != (head + rest)[k + 1] {
        if k > 0 {
          assert (head + rest)[k] == rest[k - 1];
        }
      }
    } else {
      assert head + rest == rest;
    }
  }

  // ---- every reachable state ----

  /** The calls a caller or the timeline can make on a built loop. */
  datatype Op =
    | GoTo(index: int, instant: bool)
    | GoNext(instant: bool)
    | GoPrevious(instant: bool)
    | QueryClosest(commit: bool)
    | QueryCurrent
    | Tick(time: real)

  predicate OpAllowed(duration: real, op: Op)
  {
    op.Tick? ==> 0.0 <= op.time <= duration
  }

  function Apply(l: Loop, op: Op, observed: bool): (r: Loop)
    requires Valid(l) && OpAllowed(l.duration, op)
    ensures Valid(r) && r.times == l.times && r.duration == l.duration
    ensures !l.indexIsDirty ==> !r.indexIsDirty
  {
    match op
    case GoTo(index, instant) => ToIndex(l, index, instant, observed).loop
    case GoNext(instant) => Next(l, instant, observed).loop
    case GoPrevious(instant) => Previous(l, instant, observed).loop
    case QueryClosest(commit) => ClosestIndex(l, commit).loop
    case QueryCurrent => Current(l).loop
    case Tick(t) => Frame(l, t, observed).loop
  }

  /** A loop after any sequence of calls: still valid, and never marked dirty unless it started so. */
  function Replay(l: Loop, ops: seq<Op>, observed: bool): (r: Loop)
    requires Valid(l) && forall i :: 0 <= i < |ops| ==> OpAllowed(l.duration, ops[i])
    ensures Valid(r) && r.times == l.times && r.duration == l.duration
    ensures !l.indexIsDirty ==> !r.indexIsDirty
    decreases |ops|
  {
    if |ops| == 0 then l
    else Replay(Apply(l, ops[0], observed), ops[1..], observed)
  }

  /**
   * Nothing ever sets the dirty flag, so on every loop reachable from a
   * build `current()` returns the committed index and changes nothing.
   */
  lemma CurrentIsCommittedIndex(times: seq<real>, duration: real, observed: bool, ops: seq<Op>)
    requires duration > 0.0 && |times| > 0
    requires forall i :: 0 <= i < |times| ==> 0.0 <= times[i] < duration
    requires forall i :: 0 <= i < |ops| ==> OpAllowed(duration, ops[i])
    ensures var l := Replay(Create(times, duration, observed).value.loop, ops, observed);
      Current(l) == Query(l, l.curIndex)
  {
  }

  // ---- navigation properties ----

  /**
   * One adjustment is not enough for targets farther away: from index 0 of
   * a four-item loop, `toIndex(20)` moves by 16 places, not by the zero
   * places that would reach the same item.
   */
  lemma FarTargetIsNotShortened()
    ensures ShortestTarget(20, 0, 4) == 16
    ensures WrapIndex(20, 4) == 0
  {
  }

  /**
   * A tween runs towards the chosen side: forward by at most one period
   * when the adjusted target is above the committed index, backward by at
   * most one period when below. Staying on the committed index aims at its
   * label as it is, which from the very end of the timeline onto a label
   * at 0 is a whole period backwards.
   */
  lemma ToIndexTravelsChosenWay(l: Loop, index: int, observed: bool)
    requires Valid(l)
    ensures var a := ShortestTarget(index, l.curIndex, |l.times|);
      var t := ToIndex(l, index, false, observed).motion.target;
      && (a > l.curIndex ==> l.playhead <= t <= l.playhead + l.duration)
      && (a < l.curIndex ==> l.playhead - l.duration <= t <= l.playhead)
      && (a == l.curIndex ==> t == l.times[l.curIndex])
      && (a == l.curIndex && l.playhead == l.duration && l.times[l.curIndex] == 0.0 ==>
            t == l.playhead - l.duration)
  {
  }

  /**
   * The whole-period reverse happens on a reachable state: on four evenly
   * spaced items, `next()` from the last item settles at the end of the
   * timeline on item 0, and `toIndex(0)` then tweens from 1 back to 0.
   */
  lemma FullLoopBack()
    ensures var l := Loop([0.0, 0.25, 0.5, 0.75], 1.0, 0.75, 3, false, 3);
      var s := Next(l, false, false);
      var at := Settle(s.loop, s.motion, false).loop;
      && at.curIndex == 0 && at.playhead == 1.0
      && ToIndex(at, 0, false, false).motion == Tween(0.0, false)
  {
  }

  /**
   * `toIndex` with the playhead first read through the wrap, so that the
   * end of the timeline counts as its start (the two show the same frame
   * of a seamless loop). On a playhead inside [0, duration) it is `toIndex`.
   */
  function ToIndexWrapped(l: Loop, index: int, instant: bool, observed: bool): (s: Step)
    requires Valid(l)
    ensures Valid(s.loop)
    ensures l.playhead < l.duration ==> s == ToIndex(l, index, instant, observed)
    ensures s.loop.curIndex == WrapIndex(index, |l.times|)
    ensures !instant ==>
      && s.motion.Tween?
      && (s.loop.playhead == l.playhead || (l.playhead == l.duration && s.loop.playhead == 0.0))
  {
    var p := TimeWrap(l.playhead, l.duration);
    assert l.playhead == l.duration ==> p == 0.0 by {
      if l.playhead == l.duration {
        TimeWrapUnique(l.playhead, l.duration, 1, 0.0);
      }
    }
    ToIndex(l.(playhead := p), index, instant, observed)
  }

  /**
   * With the wrapped playhead a tween moves in the chosen direction,
   * forward by at most one period and backward by less than one, and
   * staying on the committed index does not leave the label's own copy.
   * From the end of the timeline onto a label at 0 the tween has nothing
   * left to travel.
   */
  lemma WrappedToIndexTravelsChosenWay(l: Loop, index: int, observed: bool)
    requires Valid(l)
    ensures var a := ShortestTarget(index, l.curIndex, |l.times|);
      var s := ToIndexWrapped(l, index, false, observed);
      var p := s.loop.playhead;
      var t := s.motion.target;
      && (a > l.curIndex ==> p < t <= p + l.duration)
      && (a < l.curIndex ==> p - l.duration < t <= p)
      && (a == l.curIndex ==> t == l.times[l.curIndex] && Abs(t - p) < l.duration)
      && (a == l.curIndex && l.playhead == l.duration && l.times[l.curIndex] == 0.0 ==> t == p)
  {
  }

  /**
   * The forward tie: `time > tl.time()` is strict, so when the playhead
   * already sits on the label of a target above the committed index the
   * label counts as behind it, and the tween goes a whole loop forward.
   */
  lemma ToIndexForwardTie(l: Loop, index: int, observed: bool)
    requires Valid(l)
    requires ShortestTarget(index, l.curIndex, |l.times|) > l.curIndex
    requires l.playhead == l.times[WrapIndex(index, |l.times|)]
    ensures ToIndex(l, index, false, observed).motion.target == l.playhead + l.duration
  {
    WrapIndexShift(index, |l.times|);
  }

  /**
   * The forward tie on a reachable state: build a four-item loop, jump to
   * item 2, then `previous()` and `next()` before a frame has moved the
   * playhead. The second call aims a whole loop ahead of the playhead.
   */
  lemma ForwardTieReachable()
    ensures var built := Create([0.0, 0.25, 0.5, 0.75], 1.0, false).value.loop;
      var at2 := ToIndex(built, 2, true, false).loop;
      var back := Previous(at2, false, false).loop;
      && back.curIndex == 1 && back.playhead == 0.5
      && Next(back, false, false).motion == Tween(1.5, true)
  {
    var built := Create([0.0, 0.25, 0.5, 0.75], 1.0, false).value.loop;
    var at2 := ToIndex(built, 2, true, false).loop;
    assert at2.playhead == 0.5 && at2.curIndex == 2;
    ToIndexForwardTie(Previous(at2, false, false).loop, 2, false);
  }

  /**
   * The label copy a shortest move aims at: moved by one period only when
   * the label lies strictly on the wrong side of the playhead, so a label
   * under the playhead is never moved.
   */
  function TieAwareTime(time: real, playhead: real, index: int, cur: int, duration: real): (t: real)
    ensures t == time || t == time + duration || t == time - duration
    ensures index == cur || time == playhead ==> t == time
    ensures 0.0 <= time < duration && 0.0 <= playhead < duration ==>
      && (index > cur ==> playhead <= t < playhead + duration)
      && (index < cur ==> playhead - duration < t <= playhead)
    ensures time != playhead ==> t == CorrectedTime(time, playhead, index, cur, duration)
  {
    if index > cur && time < playhead then time + duration
    else if index < cur && time > playhead then time - duration
    else time
  }

  /**
   * `toIndex` as its "shortest direction" comment intends it: the playhead
   * is read through the wrap, and the label is moved only when it lies
   * strictly on the wrong side. It differs from `ToIndexWrapped` only when
   * the wrapped playhead sits on the target's label.
   */
  function ToIndexShortest(l: Loop, index: int, instant: bool, observed: bool): (s: Step)
    requires Valid(l)
    ensures Valid(s.loop)
    ensures s.loop.curIndex == WrapIndex(index, |l.times|)
    ensures s.loop.times == l.times && s.loop.duration == l.duration
    ensures s.loop.indexIsDirty == l.indexIsDirty
    ensures TimeWrap(l.playhead, l.duration) != l.times[s.loop.curIndex] ==>
      s == ToIndexWrapped(l, index, instant, observed)
    ensures instant ==> s == ToIndexWrapped(l, index, instant, observed)
    ensures !instant ==>
      && s.motion.Tween? && s.loop.playhead == TimeWrap(l.playhead, l.duration)
      && s.loop.lastIndex == l.lastIndex && s.fired == None
      && Aims(s.loop, s.motion)
  {
    var p := TimeWrap(l.playhead, l.duration);
    var n := |l.times|;
    var a := ShortestTarget(index, l.curIndex, n);
    var newIndex := WrapIndex(a, n);
    var time := l.times[newIndex];
    var target := TieAwareTime(time, p, a, l.curIndex, l.duration);
    WrapIndexShift(index, n);
    if instant then ToIndexWrapped(l, index, instant, observed)
    else Step(l.(playhead := p, curIndex := newIndex), Tween(target, target < 0.0 || target > l.duration), None)
  }

  /**
   * A shortest move never travels a whole loop: forward moves aim in
   * [p, p + D), backward moves in (p - D, p], staying put keeps the label,
   * and a label already under the playhead is not travelled to at all.
   */
  lemma ShortestToIndexTravelsChosenWay(l: Loop, index: int, observed: bool)
    requires Valid(l)
    ensures var a := ShortestTarget(index, l.curIndex, |l.times|);
      var s := ToIndexShortest(l, index, false, observed);
      var p := s.loop.playhead;
      var t := s.motion.target;
      && Abs(t - p) < l.duration
      && (a > l.curIndex ==> p <= t < p + l.duration)
      && (a < l.curIndex ==> p - l.duration < t <= p)
      && (a == l.curIndex ==> t == l.times[l.curIndex])
      && (l.times[s.loop.curIndex] == p ==> t == p)
  {
    WrapIndexShift(index, |l.times|);
  }

  /** `next()` then `previous()`, each run to completion, comes back to the starting index, for every length. */
  lemma NextThenPreviousRestores(l: Loop, instant1: bool, instant2: bool, observed: bool)
    requires Valid(l)
    ensures var s := Next(l, instant1, observed);
      var back := Previous(Settle(s.loop, s.motion, observed).loop, instant2, observed);
      back.loop.curIndex == l.curIndex
  {
  }

  /**
   * After `toIndex(i)` completes, `closestIndex(true)` reports `i` folded
   * into range, provided no two labels coincide. With an observer, that
   * item is then also the last one reported, whether the seek or the
   * tween's last frame reported it.
   */
  lemma SettledMoveIsClosest(l: Loop, index: int, instant: bool, observed: bool)
    requires Valid(l) && DistinctTimes(l.times)
    ensures var s := ToIndex(l, index, instant, observed);
      var settled := Settle(s.loop, s.motion, observed).loop;
      && ClosestIndex(settled, true).index == WrapIndex(index, |l.times|)
      && (observed ==> settled.lastIndex == WrapIndex(index, |l.times|))
  {
    var s := ToIndex(l, index, instant, observed);
    var settled := Settle(s.loop, s.motion, observed).loop;
    var k := s.loop.curIndex;
    var r := ClosestIndex(settled, true).index;
    DistBounds(l.times[k], settled.playhead, l.duration);
    DistBounds(l.times[r], settled.playhead, l.duration);
  }

  /**
   * An instant move reports the item it lands on, unless that item is the
   * one reported last; either way it is recorded as the last reported.
   */
  lemma InstantMoveReports(l: Loop, index: int)
    requires Valid(l) && DistinctTimes(l.times)
    ensures var s := ToIndex(l, index, true, true);
      var k := WrapIndex(index, |l.times|);
      && s.fired == (if l.lastIndex == k then None else Some(k))
      && s.loop.lastIndex == k
  {
  }
}

=== FILE: web_cube.dfy ===
/**
 * The standalone cube component of the second app, which carries its own
 * copy of the sticker colouring and of the 3x3x3 loop nest. Both copies
 * are modelled as written and proved to agree with the `Cubies` module,
 * so every property proved there holds here too.
 */
module WebCube {
  import opened CubeFaces
  import Cubies

  /** This app's copy of the sticker colouring: it is the same function as `Cubies.CubieMaterials`. */
  function CubieMaterials(x: int, y: int, z: int): (r: seq<Cubies.Sticker>)
    ensures r == Cubies.CubieMaterials(x, y, z)
  {
    [
      if x == 1 then Cubies.Paint(White) else Cubies.Black,
      if x == -1 then Cubies.Paint(Yellow) else Cubies.Black,
      if y == 1 then Cubies.Paint(Red) else Cubies.Black,
      if y == -1 then Cubies.Paint(Orange) else Cubies.Black,
      if z == 1 then Cubies.Paint(Blue) else Cubies.Black,
      if z == -1 then Cubies.Paint(Green) else Cubies.Black
    ]
  }

  /** Six stickers, opposite stickers never both painted, and on the grid as many painted as non-zero coordinates. */
  lemma CubieMaterialsProperties(p: Vec3)
    ensures |CubieMaterials(p.x, p.y, p.z)| == 6
    ensures var m := CubieMaterials(p.x, p.y, p.z);
      && (m[0] == Cubies.Black || m[1] == Cubies.Black)
      && (m[2] == Cubies.Black || m[3] == Cubies.Black)
      && (m[4] == Cubies.Black || m[5] == Cubies.Black)
    ensures Cubies.InGrid(p) ==> Cubies.CountPainted(CubieMaterials(p.x, p.y, p.z)) == Cubies.NonZeroCount(p)
  {
    Cubies.OppositeStickersExclusive(p.x, p.y, p.z);
    if Cubies.InGrid(p) {
      Cubies.PaintedCountIsNonZeroCount(p);
    }
  }

  /** This app's copy of the loop nest, which builds the cubies with its own colouring function. */
  method BuildCubies() returns (cubies: seq<Cubies.Cubie>)
    ensures Cubies.IsCubeLayout(cubies)
    ensures forall i, j :: 0 <= i < j < |cubies| ==> cubies[i].key != cubies[j].key
    ensures forall p :: Cubies.InGrid(p) ==> exists k :: 0 <= k < |cubies| && cubies[k].position == p
  {
    cubies := [];
    for x := -1 to 2
      invariant |cubies| == 9 * (x + 1)
      invariant Cubies.IsLayoutPrefix(cubies)
    {
      for y := -1 to 2
        invariant |cubies| == 9 * (x + 1) + 3 * (y + 1)
        invariant Cubies.IsLayoutPrefix(cubies)
      {
        for z := -1 to 2
          invariant |cubies| == 9 * (x + 1) + 3 * (y + 1) + (z + 1)
          invariant Cubies.IsLayoutPrefix(cubies)
        {
          var p := Vec3(x, y, z);
          Cubies.LayoutPrefixGrows(cubies, p);
          cubies := cubies + [Cubies.Cubie(Cubies.Key(p), p, CubieMaterials(x, y, z))];
        }
      }
    }
    Cubies.CubeLayoutKeysDistinct(cubies);
    Cubies.CubeLayoutCoversGrid(cubies);
  }
}
